=== FILE: README.md ===
# next-apollo-provider, modelled in Dafny

`next-apollo-provider` wraps a Next.js page so that it has a GraphQL (Apollo) client. The
wrapper's core is the client provisioner `getApolloClient`. It resolves the configuration the
page was wrapped with, derives a registry key from it, and applies a caching rule that
depends on where the code runs:

- on the server, every call builds a fresh client, so one request's data never reaches
  another request;
- in the browser, one client is kept per key for the whole page session.

Around the provisioner sit `getInitialProps` and the constructor. `getInitialProps`
provisions a client for the request and builds the serialisable `initialState` blob. The
constructor provisions again from that blob, with no request context.

The model is functional and threads the state explicitly:

- `JsValues`: the JavaScript values the code moves around. It covers truthiness (`||`),
  string conversion (used by the key) and object spread (used by the props).
- `ClientSettings`: the settings record, and the three configuration shapes (function,
  string, record) as a tagged union. `ResolveSettings` resolves a configuration and `KeyOf`
  derives the key.
- `Provisioner`: `GetApolloClient` over a `World`. A world holds the browser registry
  (`apolloClients`, a `map<string, ClientId>`) and the settings of every client built so far.
  Building a client means taking the next identifier, so a fresh client is distinct from all
  earlier ones by construction.
- `Sessions`: runs sequences of calls. Its lemmas show that the server never shares a client,
  and that the browser keeps exactly one client per key.
- `PageWrapper`: `getInitialProps` and the constructor, modelled as record merges. It also
  holds the hydration round trip from the server's cache snapshot to the browser's client.
- `Scenarios`: the repository's two sample configurations and concrete situations.

The model turns the code's environment into parameters:

- `process.browser` is the boolean `browser`.
- The library calls made by `getInitialProps` are functions in `Libraries`, each of which
  may throw a value: `getReduxStore`, `store.getState()`, the data-fetch pass
  `getDataFromTree`, and the cache snapshot `client.getInitialState().data`.
- The page's own `getInitialProps` is a function in `Page`, whose promise may reject.

Exceptions are `Result` failures. A provisioning call that throws leaves the world
unchanged. When a later step of `getInitialProps` throws, the client it provisioned stays in
the registry.

Two behaviours of the code worth stating plainly:

- Settings with neither a truthy name nor a resolvable endpoint raise no error in this code:
  they are keyed as `CLIENT_default` and the client is built.
- The key falls back from the name to the endpoint to `'default'`, in that order.

## Model

| member | source | states |
|---|---|---|
| ClientSettings.ResolveSettings | lib/next-apollo-provider/index.js:8-27 | A function config is called with exactly the call's `(initialState, ssrMode, context)`. Its result is used unchanged: settings as settings, a function as a factory. A nullish result is a TypeError and a throw propagates. A string yields dev tools off, that endpoint, `same-origin` credentials, the `id`-or-null extractor and nothing else. A record keeps every field except `initialState` and `ssrMode`, which take the call's values. Only the function shape can fail. |
| ClientSettings.IdOrNullOf | lib/next-apollo-provider/index.js:17 | The string config's extractor returns the object's `id` when it is truthy, otherwise `null`, so the result is never a falsy non-null value. It throws exactly on `undefined` and `null`. |
| ClientSettings.KeyOf | lib/next-apollo-provider/index.js:35 | The key starts with `CLIENT_`, followed by the first truthy of the name, the interface's `_uri` and `'default'`, converted with `String(...)`; a string is used as is and a truthy value never converts to the empty string. |
| ClientSettings.KeyIgnoresHydration | lib/next-apollo-provider/index.js:26-35 | The fields a record config overwrites (`initialState`, `ssrMode`) never affect the key. |
| ClientSettings.NameTakesPrecedence | lib/next-apollo-provider/index.js:35 | A truthy name decides the key whatever the endpoint is. |
| ClientSettings.DistinctNamesDistinctKeys | lib/next-apollo-provider/index.js:35 | Two non-empty string names give the same key if and only if they are the same name. |
| ClientSettings.StringConfigKey | lib/next-apollo-provider/index.js:14-35 | A string config is keyed by its endpoint, or by `CLIENT_default` when the string is empty. |
| Provisioner.GetApolloClient | lib/next-apollo-provider/index.js:8-49 | Resolution errors propagate and build nothing. A delegated factory gets the same arguments and leaves the world untouched. On the server the result is a new client built from the resolved settings and the registry is unchanged. In the browser a present key returns the stored client and changes nothing. An absent key gets a new client stored under that key only. Afterwards the key holds the returned client and every earlier entry and client is unchanged. Registry validity is preserved. |
| Provisioner.ServerClientIsUnregistered | lib/next-apollo-provider/index.js:37-39 | A client built on the server is not one held in the browser registry. |
| Provisioner.BrowserRepeatReuses | lib/next-apollo-provider/index.js:40-47 | After a browser call returns a client for a key, the next call whose configuration resolves to that key returns the same client and leaves the world as it was. Later calls in a whole session are covered by `Sessions.BrowserResultsAreRegistered`. |
| Provisioner.BrowserDistinctKeys | lib/next-apollo-provider/index.js:35-47 | Browser calls for different keys return different clients. |
| Sessions.RunOnlyExtends | lib/next-apollo-provider/index.js:37-47 | Over any sequence of calls, clients that were built keep their settings and registry entries keep their client. Validity holds throughout and a server session never touches the registry. |
| Sessions.ServerIdsIncrease | lib/next-apollo-provider/index.js:37-39 | Every client a server session returns was built during that session, and later requests get strictly later clients. |
| Sessions.ServerNeverShares | lib/next-apollo-provider/index.js:37-39 | No two requests of a server session get the same client. None gets a browser-registry client, and the registry is unchanged. |
| Sessions.BrowserResultsAreRegistered | lib/next-apollo-provider/index.js:40-47 | In a browser session, each request that resolves to settings got exactly the client that the final registry holds under its key. |
| Sessions.BrowserSingletonPerKey | lib/next-apollo-provider/index.js:35-47 | In a browser session, two requests get the same client if and only if their configurations resolve to the same key. |
| JsValues.ToJsString | lib/next-apollo-provider/index.js:35 | How the key's operand is printed. A string prints as itself and every truthy value prints as a non-empty string, so a key is never just the prefix. |
| JsValues.NumberPrintsDecimal | lib/next-apollo-provider/index.js:35 | A number used as a key operand prints as an optional minus sign followed by decimal digits with no leading zero (except `0` itself), and reading those digits back gives its magnitude. |
| JsValues.SpreadString | lib/next-apollo-provider/index.js:75 | Spreading a string puts each character under its decimal index, and its keys are exactly the decimal indices `0` to `length - 1`. |
| JsValues.SpreadStringInjective | lib/next-apollo-provider/index.js:75 | Two strings spread to the same object if and only if they are the same string, so spreading loses nothing. |
| JsValues.Spread | lib/next-apollo-provider/index.js:75 | `{...v}` copies an object's fields exactly. For a string the keys are exactly its decimal indices, each holding that character. Every other primitive copies nothing. |
| PageWrapper.InitialStateBlob | lib/next-apollo-provider/index.js:74-79 | The blob holds every store-state field except `apollo`, plus `apollo = {data}` carrying the client's cache snapshot, and no other field. |
| PageWrapper.GetInitialProps | lib/next-apollo-provider/index.js:55-82 | One provisioning call with `initialState` undefined, `ssrMode = !browser` and the request context. If it throws, nothing changes and no client exists. Otherwise the client and the world are the provisioned ones, even when a later step throws. The result resolves if and only if `getReduxStore`, the page's own `getInitialProps`, the server-only `getDataFromTree`, `store.getState()` and the cache snapshot all succeed. A failing data-fetch pass on the server rejects with its exception. The props are `url`, `initialState` and the page's own props, and the page's props win every clash. Without a clash, `url` is the context's query and pathname and `initialState` is the blob built from the store state and the client's snapshot. |
| PageWrapper.Construct | lib/next-apollo-provider/index.js:84-88 | Only a configuration function can make the constructor throw; otherwise it yields one of the model's clients. A configuration function that throws or returns nothing makes the constructor throw the same error. A returned factory is called with `(props.initialState, !browser, undefined)`: its client is returned, or its exception thrown, and the world is untouched. In the browser, the registry afterwards has exactly the earlier keys plus the configuration's key, the client is the registry entry for the configuration's key, and an existing entry is returned with nothing changed. On the server, and in the browser for a key not yet registered, exactly one client is built, from the settings the configuration resolves to, and it is the returned one. On the server the registry is untouched. Every registry entry present before keeps its client. From a record config that client carries the props' `initialState` and `ssrMode = !browser`. From a string config it carries no `initialState`. Registry validity is preserved. |
| PageWrapper.ConstructorPassesNoContext | lib/next-apollo-provider/index.js:86-87 | Two configuration functions that agree on every context-free call give identical constructions, so the constructor never shows a function the request context. |
| PageWrapper.PreparationPassesNoState | lib/next-apollo-provider/index.js:58 | Two configuration functions that agree on `(undefined, !browser, context)` give identical `getInitialProps` results. |
| PageWrapper.HydrationRoundTrip | lib/next-apollo-provider/index.js:73-87 | For a record config, when the page's own props carry no `initialState`, the props of a server request, given to the browser constructor when no client exists for the key yet, build a client seeded with the server's cache snapshot, the store fields and `ssrMode` false. |
| PageWrapper.StringConfigSkipsHydration | lib/next-apollo-provider/index.js:14-27 | A client the browser constructor builds for a string config has no `initialState`, whatever the props carried. |
| PageWrapper.NavigationReusesClient | lib/next-apollo-provider/index.js:55-88 | For a string or record config in the browser, the constructor after `getInitialProps` returns the same client and changes nothing. |
| Scenarios.EndpointStringScenario | lib/next-apollo-provider/index.js:14-24 | `"https://api.example.com/graphql"` resolves to dev tools off, that exact endpoint with `same-origin` credentials, and the key `CLIENT_` plus the endpoint. |
| Scenarios.NamedClientsScenario | lib/next-apollo-provider/index.js:40-47 | In the browser, starting from an empty registry, pages named "A", "B", "A", "B" get clients 0, 1, 0, 1. |
| Scenarios.ServerRequestsScenario | lib/next-apollo-provider/index.js:37-39 | On the server, two requests for the simple-settings page get clients 0 and 1 and the registry stays empty. |
| Scenarios.SamplesShareBrowserClient | lib/next-apollo-provider/index.js:35-42 | The simple and function sample configs have no name and so key on their endpoint. In the browser they share one client when the endpoint is the same. |
| Scenarios.ContextOnlyInPreparation | lib/next-apollo-provider/index.js:84-87 | A config function that records its context sees the request context during server preparation. In the constructor that follows a resolved preparation, it sees `undefined`. |
| Scenarios.KeyCollisions | lib/next-apollo-provider/index.js:35 | The name `5` and the name `"5"` share a key, while `42` and `"042"` do not. The name `"default"` shares the key of unnamed settings with no endpoint. A falsy name falls back to the endpoint. |
| Scenarios.IdOrNullScenario | lib/next-apollo-provider/index.js:17 | A truthy `id` is returned; an `id` of `0` or a missing `id` gives `null`; `null` throws. |

## Left out

- What the data-fetch pass `getDataFromTree` does inside the client, `ApolloProvider`, rendering and the Next.js lifecycle (index.js:67-68, 91-93). These are asynchronous library and UI calls. The pass is modelled only as a call that may throw, and its effect on the client is the snapshot that `Libraries.cacheData` reports.
- `ApolloClient` and `createNetworkInterface` internals. A client is an opaque identifier. A network interface is a record whose endpoint is assumed to be readable as `_uri`, the property index.js:35 reads.
- ClientSettings.StringConfigKey: `createNetworkInterface` (index.js:18) is assumed never to throw. So `StringConfig("")` resolving and keying as `CLIENT_default` is the model's behaviour, and the library may instead reject an empty endpoint.
- ClientSettings.ResolveSettings: "only the function shape can fail" rests on the same assumption that `createNetworkInterface` never throws.
- The Redux store's contents. A store is an opaque handle, and `getReduxStore` receives only the client, whose `initialState` it could read.
- PageWrapper.Construct: the constructor's own `getReduxStore` call (index.js:88) is not modelled, so a throw from it is not either.
- Promises. `await` is a plain function call, and a rejected promise is a thrown value.
- `isomorphic-fetch`, `process.env` and network traffic. The samples' `NODE_ENV` test is the boolean `devTools`.
- JavaScript numbers are safe integers here, at most 2^53 - 1 in magnitude. NaN, infinities, fractions and larger magnitudes as names or endpoints are not modelled. Symbols and arrays are not values, and a function stored in a settings field other than the ones named is not modelled.
- JsValues.ToJsString: a number prints in plain decimal, which is what JavaScript prints for every safe integer. Exponent forms, `-0` and non-integers are out of range of the model's numbers.
- JsValues.SpreadString: a Dafny string is a sequence of Unicode scalar values, while JavaScript indexes UTF-16 code units. For a character outside the Basic Multilingual Plane, JavaScript gives two keys (`{..."😀"}` has keys `0` and `1`) where the model gives one.
- A configuration function that returns a boolean, number or string (index.js:13) is not modelled. Such a value would be passed on to `new ApolloClient` as the settings.
- A settings `name` getter with side effects, and prototype properties. Every key starts with `CLIENT_`, so no key can hit `Object.prototype`.
- `lib/withApolloBasic` is not part of this model. The pages and components are presentation only.

=== FILE: client_settings.dfy ===
/**
 The first two steps of `getApolloClient`: turning the configuration a page was wrapped with
 into a settings record (or into a client factory the provisioner delegates to), and deriving
 the registry key under which the browser keeps the client built from those settings.
 */
module ClientSettings {
  import opened Wrappers
  import opened JsValues

  /** The network interface `createNetworkInterface({uri, opts: {credentials}})` returns. The
      model assumes the library exposes the endpoint as the `_uri` property, which is the only
      part the key derivation reads. */
  datatype NetworkInterface = NetworkInterface(uri: Value, credentials: Value)

  /** A `dataIdFromObject` option: the library's customary `result.id || null` extractor, or
      some other function the model never calls and identifies by a handle. */
  datatype IdExtractor = IdOrNull | Supplied(handle: nat)

  /** A settings record handed to `new ApolloClient(...)`. A property the object does not have
      is `Undefined` (or `None`); `rest` holds every other property, passed through untouched. */
  datatype Settings = Settings(
    name: Value,
    networkInterface: Option<NetworkInterface>,
    connectToDevTools: Value,
    dataIdFromObject: Option<IdExtractor>,
    initialState: Value,
    ssrMode: Value,
    rest: map<string, Value>)

  /** The settings object with no properties at all; spreading `undefined` or `null` gives it too. */
  const NoSettings := Settings(Undefined, None, Undefined, None, Undefined, Undefined, map[])

  /** The arguments every call into user configuration code receives: `(initialState, ssrMode, context)`. */
  datatype Call = Call(initialState: Value, ssrMode: bool, context: Value)

  /** Whatever client object a user-supplied factory returns; opaque to the model. */
  datatype ExternalClient = ExternalClient(handle: nat)

  /** Exceptions: one thrown by user code (carrying the thrown value), or the `TypeError` of
      reading a property of `undefined` or `null`. */
  datatype Error = Thrown(exception: Value) | TypeError(message: string)

  /** What a configuration function may return: a settings record, another function (taken to
      be a client factory), `undefined`/`null`, or it may throw. */
  datatype Returned =
    | ReturnsSettings(settings: Settings)
    | ReturnsFactory(make: Call -> Result<ExternalClient, Value>)
    | ReturnsNullish
    | Throws(exception: Value)

  /** The three shapes of the `apolloClientSettings` argument, told apart by `typeof`. */
  datatype Config =
    | FunctionConfig(f: Call -> Returned)
    | StringConfig(uri: string)
    | RecordConfig(settings: Settings)

  /** The outcome of resolution: settings to build a client from, or a factory to delegate to. */
  datatype Resolved =
    | Settled(settings: Settings)
    | Delegate(make: Call -> Result<ExternalClient, Value>)

  /** The endpoint value `settings.networkInterface && settings.networkInterface._uri` reads. */
  function UriOf(s: Settings): Value {
    if s.networkInterface.Some? then s.networkInterface.value.uri else Undefined
  }

  /** The extractor `(result) => (result.id || null)`. Reading `.id` of `undefined` or `null`
      throws; any other primitive has no `id` and yields `null`. */
  function IdOrNullOf(result: Value): (r: Result<Value, Error>)
    ensures r.Failure? <==> result == Undefined || result == Null
    ensures r.Success? ==> r.value == Null || Truthy(r.value)
    ensures r.Success? && Truthy(r.value) ==> result.Obj? && "id" in result.fields && result.fields["id"] == r.value
    ensures result.Obj? && "id" in result.fields && Truthy(result.fields["id"]) ==> r == Success(result.fields["id"])
  {
    match result
    case Undefined => Failure(TypeError("Cannot read property 'id' of undefined"))
    case Null => Failure(TypeError("Cannot read property 'id' of null"))
    case Obj(fields) => Success(Or(Field(fields, "id"), Null))
    case _ => Success(Null)
  }

  /** The settings a bare endpoint string stands for. */
  function StringSettings(uri: string): Settings {
    NoSettings.(
      connectToDevTools := Bool(false),
      dataIdFromObject := Some(IdOrNull),
      networkInterface := Some(NetworkInterface(Str(uri), Str("same-origin"))))
  }

  /** Resolution of the configuration for one call. A function is called with exactly the
      call's arguments and its result used as is; a string becomes default settings for that
      endpoint; a record is copied with `initialState` and `ssrMode` overwritten. */
  function ResolveSettings(cfg: Config, call: Call): (r: Result<Resolved, Error>)
    ensures cfg.FunctionConfig? ==>
      match cfg.f(call)
      case ReturnsSettings(s) => r == Success(Settled(s))
      case ReturnsFactory(make) => r.Success? && r.value.Delegate? && r.value.make == make
      case ReturnsNullish => r.Failure? && r.error.TypeError?
      case Throws(e) => r == Failure(Thrown(e))
    ensures cfg.StringConfig? ==>
      && r.Success? && r.value.Settled?
      && r.value.settings.connectToDevTools == Bool(false)
      && r.value.settings.networkInterface == Some(NetworkInterface(Str(cfg.uri), Str("same-origin")))
      && r.value.settings.dataIdFromObject == Some(IdOrNull)
      && r.value.settings.name == Undefined
      && r.value.settings.initialState == Undefined
      && r.value.settings.ssrMode == Undefined
      && r.value.settings.rest == map[]
    ensures cfg.RecordConfig? ==>
      && r.Success? && r.value.Settled?
      && r.value.settings.initialState == call.initialState
      && r.value.settings.ssrMode == Bool(call.ssrMode)
      && r.value.settings.name == cfg.settings.name
      && r.value.settings.networkInterface == cfg.settings.networkInterface
      && r.value.settings.connectToDevTools == cfg.settings.connectToDevTools
      && r.value.settings.dataIdFromObject == cfg.settings.dataIdFromObject
      && r.value.settings.rest == cfg.settings.rest
    ensures r.Failure? <==> cfg.FunctionConfig? && (cfg.f(call).ReturnsNullish? || cfg.f(call).Throws?)
  {
    match cfg
    case FunctionConfig(f) =>
      (match f(call)
       case ReturnsSettings(s) => Success(Settled(s))
       case ReturnsFactory(make) => Success(Delegate(make))
       case ReturnsNullish => Failure(TypeError("Cannot read property 'name' of null"))
       case Throws(e) => Failure(Thrown(e)))
    case StringConfig(uri) => Success(Settled(StringSettings(uri)))
    case RecordConfig(s) => Success(Settled(s.(initialState := call.initialState, ssrMode := Bool(call.ssrMode))))
  }

  const KeyPrefix := "CLIENT_"

  /** `'CLIENT_' + (settings.name || (settings.networkInterface && settings.networkInterface._uri) || 'default')` */
  function KeyOf(s: Settings): (k: string)
    ensures |k| > |KeyPrefix| && k[..|KeyPrefix|] == KeyPrefix
    ensures Truthy(s.name) ==> k == KeyPrefix + ToJsString(s.name)
    ensures !Truthy(s.name) && Truthy(UriOf(s)) ==> k == KeyPrefix + ToJsString(UriOf(s))
    ensures !Truthy(s.name) && !Truthy(UriOf(s)) ==> k == KeyPrefix + "default"
  {
    KeyPrefix + ToJsString(Or(s.name, Or(UriOf(s), Str("default"))))
  }

  /** The key never depends on the two fields a record config overwrites, so the settings of
      one configuration land under one key whatever state and mode they are resolved with. */
  lemma KeyIgnoresHydration(s: Settings, initialState: Value, ssrMode: Value)
    ensures KeyOf(s.(initialState := initialState, ssrMode := ssrMode)) == KeyOf(s)
  {
  }

  /** A truthy name decides the key alone; the endpoint is consulted only without one. */
  lemma NameTakesPrecedence(s: Settings, t: Settings)
    requires Truthy(s.name) && t.name == s.name
    ensures KeyOf(s) == KeyOf(t)
  {
  }

  /** Distinct non-empty string names give distinct keys (so two clients named "A" and "B"
      never share a registry slot), and a name never collides with the default key unless it
      is the string "default" itself. */
  lemma {:induction false} DistinctNamesDistinctKeys(s: Settings, t: Settings)
    requires s.name.Str? && t.name.Str? && s.name.s != "" && t.name.s != ""
    ensures KeyOf(s) == KeyOf(t) <==> s.name == t.name
  {
    if KeyOf(s) == KeyOf(t) {
      assert s.name.s == KeyOf(s)[|KeyPrefix|..];
      assert t.name.s == KeyOf(t)[|KeyPrefix|..];
    }
  }

  /** A string config's key is its endpoint, or the default key for the empty string. */
  lemma StringConfigKey(uri: string, call: Call)
    ensures ResolveSettings(StringConfig(uri), call).Success?
    ensures uri != "" ==> KeyOf(ResolveSettings(StringConfig(uri), call).value.settings) == KeyPrefix + uri
    ensures uri == "" ==> KeyOf(ResolveSettings(StringConfig(uri), call).value.settings) == KeyPrefix + "default"
  {
  }
}

=== FILE: js_values.dfy ===
/**
 The JavaScript values that the provisioner and the page wrapper read, copy and spread:
 truthiness (used by `||` and `&&`), string conversion (used to build a registry key) and
 object spread (used to assemble the initial-state blob and the page props).
 */
module JsValues {

  /** `Number.MAX_SAFE_INTEGER`, 2^53 - 1. */
  const MaxSafeInteger: int := 0x1F_FFFF_FFFF_FFFF

  /** The integers a JavaScript number represents exactly; every one of them prints in plain
      decimal (exponent form starts at 10^21). */
  type SafeInteger = n: int | -MaxSafeInteger <= n <= MaxSafeInteger

  /** A JavaScript value as far as this model needs one. Numbers are safe integers (NaN,
      infinities, fractions and larger magnitudes are not modelled); functions are not values
      here, because every place that holds a function has its own datatype. */
  datatype Value =
    | Undefined
    | Null
    | Bool(b: bool)
    | Num(n: SafeInteger)
    | Str(s: string)
    | Obj(fields: map<string, Value>)

  /** JavaScript truthiness: `undefined`, `null`, `false`, `0` and `""` are falsy, every object is truthy. */
  predicate Truthy(v: Value) {
    match v
    case Undefined => false
    case Null => false
    case Bool(b) => b
    case Num(n) => n != 0
    case Str(s) => s != ""
    case Obj(_) => true
  }

  /** `a || b` */
  function Or(a: Value, b: Value): Value {
    if Truthy(a) then a else b
  }

  /** `o.p` on an object: a missing property reads as `undefined`. */
  function Field(fields: map<string, Value>, p: string): Value {
    if p in fields then fields[p] else Undefined
  }

  function DigitChar(d: nat): (c: char)
    requires d < 10
    ensures '0' <= c <= '9'
  {
    (48 + d) as char
  }

  predicate AllDigits(s: string) {
    forall i | 0 <= i < |s| :: '0' <= s[i] <= '9'
  }

  /** The decimal digits of `n`, without leading zeros: how JavaScript prints a non-negative integer. */
  function Decimal(n: nat): (s: string)
    ensures 1 <= |s|
    ensures AllDigits(s)
    ensures |s| == 1 <==> n < 10
    ensures s[0] == '0' ==> n == 0
    decreases n
  {
    if n < 10 then [DigitChar(n)] else Decimal(n / 10) + [DigitChar(n % 10)]
  }

  /** The number a string of decimal digits denotes; the inverse of `Decimal`. */
  function DecimalValue(s: string): nat
    requires AllDigits(s)
    decreases |s|
  {
    if |s| == 0 then 0 else 10 * DecimalValue(s[..|s| - 1]) + (s[|s| - 1] as int - 48)
  }

  lemma {:induction false} DecimalRoundTrip(n: nat)
    ensures DecimalValue(Decimal(n)) == n
    decreases n
  {
    if n >= 10 {
      DecimalRoundTrip(n / 10);
      var s := Decimal(n);
      assert s[..|s| - 1] == Decimal(n / 10);
    }
  }

  /** Distinct numbers print differently, so index keys of a spread string never clash. */
  lemma DecimalInjectivePair(a: nat, b: nat)
    requires Decimal(a) == Decimal(b)
    ensures a == b
  {
    DecimalRoundTrip(a);
    DecimalRoundTrip(b);
  }

  /** `String(v)` and `'' + v`. */
  function ToJsString(v: Value): (s: string)
    ensures Truthy(v) ==> s != ""
    ensures v.Str? ==> s == v.s
  {
    match v
    case Undefined => "undefined"
    case Null => "null"
    case Bool(b) => if b then "true" else "false"
    case Num(n) => if n < 0 then "-" + Decimal(-n) else Decimal(n)
    case Str(s) => s
    case Obj(_) => "[object Object]"
  }

  /** A safe integer prints as an optional minus sign and the decimal digits of its
      magnitude with no leading zero, and reading those digits back gives the magnitude. */
  lemma {:induction false} NumberPrintsDecimal(n: SafeInteger)
    ensures var s := ToJsString(Num(n));
      && (n >= 0 ==> AllDigits(s) && DecimalValue(s) == n && (s[0] == '0' ==> s == "0"))
      && (n < 0 ==> 2 <= |s| && s[0] == '-' && s[1] != '0' && AllDigits(s[1..]) && DecimalValue(s[1..]) == -n)
  {
    if n >= 0 {
      assert ToJsString(Num(n)) == Decimal(n);
      DecimalRoundTrip(n);
    } else {
      var d := Decimal(-n);
      assert ToJsString(Num(n)) == "-" + d;
      assert ("-" + d)[1..] == d;
      DecimalRoundTrip(-n);
    }
  }

  /** The own enumerable properties `{...v}` copies: an object's fields, a string's characters
      under their decimal indices, and nothing for every other primitive. */
  function Spread(v: Value): (m: map<string, Value>)
    ensures v.Obj? ==> m == v.fields
    ensures !v.Obj? && !v.Str? ==> m == map[]
    ensures v.Str? ==> forall i: nat | i < |v.s| :: Decimal(i) in m && m[Decimal(i)] == Str([v.s[i]])
    ensures v.Str? ==> m.Keys == IndexKeys(|v.s|)
  {
    match v
    case Obj(fields) => fields
    case Str(s) => SpreadString(s)
    case _ => map[]
  }

  /** `{..."abc"}` is `{"0": "a", "1": "b", "2": "c"}`. */
  function SpreadString(s: string): (m: map<string, Value>)
    ensures forall i: nat | i < |s| :: Decimal(i) in m && m[Decimal(i)] == Str([s[i]])
    ensures m.Keys == IndexKeys(|s|)
    decreases |s|
  {
    if |s| == 0 then map[]
    else
      var prev := SpreadString(s[..|s| - 1]);
      SpreadStringStepValues(s, prev);
      SpreadStringStepKeys(s, prev);
      prev[Decimal(|s| - 1) := Str([s[|s| - 1]])]
  }

  /** Adding the last character under its index keeps every earlier character in place... */
  lemma SpreadStringStepValues(s: string, prev: map<string, Value>)
    requires |s| > 0
    requires forall i: nat | i < |s| - 1 :: Decimal(i) in prev && prev[Decimal(i)] == Str([s[..|s| - 1][i]])
    ensures var m := prev[Decimal(|s| - 1) := Str([s[|s| - 1]])];
      forall i: nat | i < |s| :: Decimal(i) in m && m[Decimal(i)] == Str([s[i]])
  {
    var last := |s| - 1;
    var m := prev[Decimal(last) := Str([s[last]])];
    forall i: nat | i < |s|
      ensures Decimal(i) in m && m[Decimal(i)] == Str([s[i]])
    {
      if i < last {
        if Decimal(i) == Decimal(last) {
          DecimalInjectivePair(i, last);
        }
        assert s[..last][i] == s[i];
      }
    }
  }

  /** ... and adds exactly one index key. */
  lemma SpreadStringStepKeys(s: string, prev: map<string, Value>)
    requires |s| > 0
    requires prev.Keys == IndexKeys(|s| - 1)
    ensures prev[Decimal(|s| - 1) := Str([s[|s| - 1]])].Keys == IndexKeys(|s|)
  {
    IndexKeysStep(|s| - 1);
  }

  /** The decimal indices `"0"`, ..., of a string of length `n`. */
  function IndexKeys(n: nat): set<string> {
    set i: nat | i < n :: Decimal(i)
  }

  lemma IndexKeysStep(n: nat)
    ensures IndexKeys(n + 1) == IndexKeys(n) + {Decimal(n)}
  {
    assert Decimal(n) in IndexKeys(n + 1);
  }

  /** The index keys of a longer string include one a shorter string lacks. */
  lemma IndexKeysDetermineLength(m: nat, n: nat)
    requires IndexKeys(m) == IndexKeys(n)
    ensures m <= n
  {
    if m > 0 {
      assert Decimal(m - 1) in IndexKeys(m);
      var i: nat :| i < n && Decimal(i) == Decimal(m - 1);
      DecimalInjectivePair(i, m - 1);
    }
  }

  /** Spreading a string copies its characters under their indices and nothing else: the
      string and its spread determine each other. */
  lemma {:induction false} SpreadStringInjective(s: string, t: string)
    ensures SpreadString(s) == SpreadString(t) <==> s == t
  {
    if SpreadString(s) == SpreadString(t) {
      IndexKeysDetermineLength(|s|, |t|);
      IndexKeysDetermineLength(|t|, |s|);
      forall i | 0 <= i < |s|
        ensures s[i] == t[i]
      {
        assert SpreadString(s)[Decimal(i)] == Str([s[i]]);
        assert SpreadString(t)[Decimal(i)] == Str([t[i]]);
      }
    }
  }
}

=== FILE: page_wrapper.dfy ===
/**
 The page wrapper returned by the default export: `getInitialProps` provisions a client for the
 request, assembles the page's props and the serialisable initial-state blob; the constructor
 provisions again, from that blob and without the request context.
 */
module PageWrapper {
  import opened Wrappers
  import opened JsValues
  import opened ClientSettings
  import opened Provisioner

  /** The wrapped page component: its own `getInitialProps(context)`, when it declares one.
      Its promise resolves to props or rejects with a value. */
  datatype Page = Page(getInitialProps: Option<map<string, Value> -> Result<map<string, Value>, Value>>)

  /** A Redux store made by `getReduxStore`; opaque to the model. */
  datatype Store = Store(handle: nat)

  /** What the wrapper asks the libraries, each of which may throw (or reject) with a value:
      `getReduxStore(client, ...)` when one was given, `store.getState()`, the server-side
      data-fetch pass `getDataFromTree` over the page rendered with its props, and the
      normalised cache `client.getInitialState().data` read after that pass. */
  datatype Libraries = Libraries(
    getReduxStore: Option<Provided -> Result<Store, Value>>,
    getState: Store -> Result<Value, Value>,
    getDataFromTree: (Provided, map<string, Value>) -> Result<(), Value>,
    cacheData: Provided -> Result<Value, Value>)

  /** The outcome of `getInitialProps`: the props it resolves to or the exception it rejects
      with, the client it provisioned (if provisioning got that far) and the world afterwards.
      A failure after provisioning does not undo what provisioning did to the registry. */
  datatype Prepared = Prepared(outcome: Result<map<string, Value>, Error>, client: Option<Provided>, world: World)

  /** The arguments `getInitialProps` provisions with: no initial state, server mode off the browser, the request context. */
  function PreparationCall(browser: bool, context: map<string, Value>): Call {
    Call(Undefined, !browser, Obj(context))
  }

  /** The arguments the constructor provisions with: the props' initial state and no context. */
  function ConstructionCall(props: map<string, Value>, browser: bool): Call {
    Call(Field(props, "initialState"), !browser, Undefined)
  }

  /** An exception thrown by library or page code. */
  function Lift<T>(r: Result<T, Value>): Result<T, Error> {
    match r
    case Success(v) => Success(v)
    case Failure(e) => Failure(Thrown(e))
  }

  /** `getReduxStore && getReduxStore(client, client.initialState)` */
  function MakeStore(libs: Libraries, client: Provided): Result<Option<Store>, Error> {
    if libs.getReduxStore.None? then Success(None)
    else
      match libs.getReduxStore.value(client)
      case Success(st) => Success(Some(st))
      case Failure(e) => Failure(Thrown(e))
  }

  /** `Component.getInitialProps ? Component.getInitialProps(context) : {}` */
  function OwnProps(page: Page, context: map<string, Value>): Result<map<string, Value>, Error> {
    if page.getInitialProps.Some? then Lift(page.getInitialProps.value(context)) else Success(map[])
  }

  /** The data-fetch pass, which runs only off the browser. */
  function FetchPass(libs: Libraries, browser: bool, client: Provided, props: map<string, Value>): Result<(), Error> {
    if browser then Success(()) else Lift(libs.getDataFromTree(client, props))
  }

  /** `store && store.getState()`: `undefined` without a store. */
  function StoreState(libs: Libraries, store: Option<Store>): Result<Value, Error> {
    if store.None? then Success(Undefined) else Lift(libs.getState(store.value))
  }

  function UrlOf(context: map<string, Value>): Value {
    Obj(map["query" := Field(context, "query"), "pathname" := Field(context, "pathname")])
  }

  /** `{url: {query, pathname}, ...ownProps}`: the props the page is rendered with. */
  function PageProps(context: map<string, Value>, own: map<string, Value>): map<string, Value> {
    map["url" := UrlOf(context)] + own
  }

  /** `{...storeState, apollo: {data}}` */
  function InitialStateBlob(storeState: Value, data: Value): (blob: Value)
    ensures blob.Obj?
    ensures blob.fields.Keys == Spread(storeState).Keys + {"apollo"}
    ensures blob.fields["apollo"] == Obj(map["data" := data])
    ensures forall k | k in Spread(storeState) && k != "apollo" :: blob.fields[k] == Spread(storeState)[k]
  {
    Obj(Spread(storeState)["apollo" := Obj(map["data" := data])])
  }

  /** The steps after provisioning, in source order: make the store, get the page's own props,
      run the data-fetch pass, read the store state and the cache; the first exception wins. */
  function Assemble(client: Provided, browser: bool, context: map<string, Value>, page: Page,
                    libs: Libraries): Result<map<string, Value>, Error>
  {
    match MakeStore(libs, client)
    case Failure(e) => Failure(e)
    case Success(store) =>
      match OwnProps(page, context)
      case Failure(e) => Failure(e)
      case Success(own) =>
        var props := PageProps(context, own);
        match FetchPass(libs, browser, client, props)
        case Failure(e) => Failure(e)
        case Success(_) =>
          match StoreState(libs, store)
          case Failure(e) => Failure(e)
          case Success(state) =>
            match Lift(libs.cacheData(client))
            case Failure(e) => Failure(e)
            case Success(data) => Success(map["initialState" := InitialStateBlob(state, data)] + props)
  }

  /** `getInitialProps(context)`. */
  function GetInitialProps(cfg: Config, browser: bool, context: map<string, Value>, page: Page,
                           libs: Libraries, w: World): (r: Prepared)
    // one provisioning call with no state, server mode off the browser, and the context;
    // its effect on the world stays even when a later step throws
    ensures var p := GetApolloClient(cfg, PreparationCall(browser, context), browser, w);
      && (p.Failure? ==> r == Prepared(Failure(p.error), None, w))
      && (p.Success? ==> r.client == Some(p.value.client) && r.world == p.value.world)
    // it resolves exactly when every step does
    ensures r.outcome.Success? <==>
      && r.client.Some?
      && MakeStore(libs, r.client.value).Success?
      && OwnProps(page, context).Success?
      && FetchPass(libs, browser, r.client.value, PageProps(context, OwnProps(page, context).value)).Success?
      && StoreState(libs, MakeStore(libs, r.client.value).value).Success?
      && libs.cacheData(r.client.value).Success?
    // off the browser the data-fetch pass runs; in the browser it never fails anything
    ensures r.client.Some? && MakeStore(libs, r.client.value).Success? && OwnProps(page, context).Success?
            && !browser && libs.getDataFromTree(r.client.value, PageProps(context, OwnProps(page, context).value)).Failure? ==>
      r.outcome == Failure(Thrown(libs.getDataFromTree(r.client.value, PageProps(context, OwnProps(page, context).value)).error))
    ensures r.outcome.Success? ==>
      var own := OwnProps(page, context).value;
      var props := r.outcome.value;
      && props.Keys == own.Keys + {"url", "initialState"}
      // the page's own props win every clash
      && (forall k | k in own :: props[k] == own[k])
      && ("url" !in own ==> props["url"] == UrlOf(context))
      && ("initialState" !in own ==>
            props["initialState"] == InitialStateBlob(StoreState(libs, MakeStore(libs, r.client.value).value).value,
                                                      libs.cacheData(r.client.value).value))
  {
    match GetApolloClient(cfg, PreparationCall(browser, context), browser, w)
    case Failure(e) => Prepared(Failure(e), None, w)
    case Success(p) => Prepared(Assemble(p.client, browser, context, page, libs), Some(p.client), p.world)
  }

  /** The constructor: provisions from `props.initialState`, with no context, and keeps the
      client as `this.client`. */
  function Construct(cfg: Config, props: map<string, Value>, browser: bool, w: World): (r: Result<Provision, Error>)
    // only a configuration function can make it throw; otherwise the client is one of ours
    ensures r.Failure? ==> cfg.FunctionConfig?
    // a configuration function that throws or returns nothing makes the constructor throw
    ensures ResolveSettings(cfg, ConstructionCall(props, browser)).Failure? ==>
      r == Failure(ResolveSettings(cfg, ConstructionCall(props, browser)).error)
    // a returned factory is called with the constructor's arguments, and its client is kept
    // without touching the world
    ensures ResolveSettings(cfg, ConstructionCall(props, browser)).Success?
            && ResolveSettings(cfg, ConstructionCall(props, browser)).value.Delegate? ==>
      var made := ResolveSettings(cfg, ConstructionCall(props, browser)).value.make(ConstructionCall(props, browser));
      && (made.Success? ==> r == Success(Provision(Delegated(made.value), w)))
      && (made.Failure? ==> r == Failure(Thrown(made.error)))
    ensures !cfg.FunctionConfig? ==> r.Success? && r.value.client.Managed?
    // in the browser: afterwards the client is the registry entry for the configuration's key,
    // and an entry already there is returned with nothing changed
    ensures browser && KeyFor(cfg, ConstructionCall(props, browser)).Some? ==>
      var k := KeyFor(cfg, ConstructionCall(props, browser)).value;
      && r.Success? && k in r.value.world.registry && r.value.client == Managed(r.value.world.registry[k])
      && (k in w.registry ==> r.value == Provision(Managed(w.registry[k]), w))
      && r.value.world.registry.Keys == w.registry.Keys + {k}
    // off the browser: a new client every time, registry untouched
    ensures !browser && KeyFor(cfg, ConstructionCall(props, browser)).Some? ==>
      r.Success? && r.value.client == Managed(|w.built|) && r.value.world.registry == w.registry
    // a client it builds is the returned one; a record config seeds it from the props,
    // a string config does not seed it at all
    ensures r.Success? && |r.value.world.built| > |w.built| ==>
      && r.value.client == Managed(|w.built|)
      && |r.value.world.built| == |w.built| + 1
      && (cfg.RecordConfig? ==>
            && r.value.world.built[|w.built|].initialState == Field(props, "initialState")
            && r.value.world.built[|w.built|].ssrMode == Bool(!browser))
      && (cfg.StringConfig? ==>
            && r.value.world.built[|w.built|].initialState == Undefined
            && r.value.world.built[|w.built|].ssrMode == Undefined)
    // on the server, and in the browser for a key not yet registered, exactly one client is
    // built, from the settings the configuration resolves to for this call
    ensures KeyFor(cfg, ConstructionCall(props, browser)).Some?
            && (!browser || KeyFor(cfg, ConstructionCall(props, browser)).value !in w.registry) ==>
      && r.Success?
      && r.value.world.built == w.built + [ResolveSettings(cfg, ConstructionCall(props, browser)).value.settings]
    // every registry entry that was there before is still there, holding the same client
    ensures r.Success? ==> forall k | k in w.registry :: k in r.value.world.registry && r.value.world.registry[k] == w.registry[k]
    ensures r.Success? && Valid(w) ==> Valid(r.value.world)
  {
    GetApolloClient(cfg, ConstructionCall(props, browser), browser, w)
  }

  /** The constructor never hands a configuration function the request context: two functions
      that agree on context-free calls give identical constructions, whatever the props. */
  lemma ConstructorPassesNoContext(f: Call -> Returned, g: Call -> Returned, props: map<string, Value>, browser: bool, w: World)
    requires forall c: Call | c.context == Undefined :: f(c) == g(c)
    ensures Construct(FunctionConfig(f), props, browser, w) == Construct(FunctionConfig(g), props, browser, w)
  {
    assert f(ConstructionCall(props, browser)) == g(ConstructionCall(props, browser));
  }

  /** `getInitialProps` hands a configuration function only `(undefined, !browser, context)`. */
  lemma PreparationPassesNoState(f: Call -> Returned, g: Call -> Returned, browser: bool, context: map<string, Value>,
                                 page: Page, libs: Libraries, w: World)
    requires forall c: Call | c.initialState == Undefined && c.ssrMode == !browser && c.context == Obj(context) :: f(c) == g(c)
    ensures GetInitialProps(FunctionConfig(f), browser, context, page, libs, w)
         == GetInitialProps(FunctionConfig(g), browser, context, page, libs, w)
  {
    assert f(PreparationCall(browser, context)) == g(PreparationCall(browser, context));
  }

  /** Hydration round trip for a record config: the props a server request resolved to, handed
      to the constructor in a browser that has no client for that key yet, build a client whose
      `initialState` carries the server's cache snapshot and every store field beside it. */
  lemma {:induction false} HydrationRoundTrip(s: Settings, context: map<string, Value>, page: Page, libs: Libraries,
                                              server: World, browserWorld: World)
    requires GetInitialProps(RecordConfig(s), false, context, page, libs, server).outcome.Success?
    requires "initialState" !in OwnProps(page, context).value
    requires KeyOf(s) !in browserWorld.registry
    ensures var prep := GetInitialProps(RecordConfig(s), false, context, page, libs, server);
      var client := prep.client.value;
      var state := StoreState(libs, MakeStore(libs, client).value).value;
      var c := Construct(RecordConfig(s), prep.outcome.value, true, browserWorld);
      && c.Success? && c.value.client == Managed(|browserWorld.built|)
      && var seeded := c.value.world.built[c.value.client.id].initialState;
      && seeded.Obj?
      && seeded.fields["apollo"] == Obj(map["data" := libs.cacheData(client).value])
      && (forall k | k in Spread(state) && k != "apollo" :: seeded.fields[k] == Spread(state)[k])
      && c.value.world.built[c.value.client.id].ssrMode == Bool(false)
  {
    var prep := GetInitialProps(RecordConfig(s), false, context, page, libs, server);
    var call := ConstructionCall(prep.outcome.value, true);
    KeyIgnoresHydration(s, call.initialState, Bool(call.ssrMode));
    assert KeyFor(RecordConfig(s), call) == Some(KeyOf(s));
  }

  /** A string config never hydrates: the client the constructor builds for it has no
      `initialState`, whatever the server put in the props, so the browser cache starts empty. */
  lemma StringConfigSkipsHydration(uri: string, props: map<string, Value>, w: World)
    requires KeyOf(StringSettings(uri)) !in w.registry
    ensures var c := Construct(StringConfig(uri), props, true, w);
      && c.Success? && c.value.client == Managed(|w.built|)
      && c.value.world.built[|w.built|].initialState == Undefined
  {
    assert KeyFor(StringConfig(uri), ConstructionCall(props, true)) == Some(KeyOf(StringSettings(uri)));
  }

  /** Client-side navigation: once `getInitialProps` resolved in the browser for a string or
      record config, the constructor that follows gets the very client it used, and changes nothing. */
  lemma {:induction false} NavigationReusesClient(cfg: Config, context: map<string, Value>, page: Page, libs: Libraries, w: World)
    requires !cfg.FunctionConfig?
    requires GetInitialProps(cfg, true, context, page, libs, w).outcome.Success?
    ensures var prep := GetInitialProps(cfg, true, context, page, libs, w);
      && prep.client.Some?
      && Construct(cfg, prep.outcome.value, true, prep.world) == Success(Provision(prep.client.value, prep.world))
  {
    var prep := GetInitialProps(cfg, true, context, page, libs, w);
    var c1 := PreparationCall(true, context);
    var c2 := ConstructionCall(prep.outcome.value, true);
    if cfg.RecordConfig? {
      KeyIgnoresHydration(cfg.settings, c1.initialState, Bool(c1.ssrMode));
      KeyIgnoresHydration(cfg.settings, c2.initialState, Bool(c2.ssrMode));
    }
    assert KeyFor(cfg, c1) == KeyFor(cfg, c2);
    BrowserRepeatReuses(cfg, c1, cfg, c2, w);
  }
}

=== FILE: provisioner.dfy ===
/**
 `getApolloClient`: resolve the configuration, then either delegate to a factory, build a fresh
 client (server), or keep one client per key in a registry that lives as long as the page
 session (browser). The module-level `apolloClients` object is the `registry` of an explicit
 `World`, threaded through every call.
 */
module Provisioner {
  import opened Wrappers
  import opened JsValues
  import opened ClientSettings

  /** `new ApolloClient(settings)` is modelled as drawing the next identifier. */
  type ClientId = nat

  /** The provisioner's state: the registry of browser clients, and the settings of every client
      built so far, in order (client `i` was built from `built[i]`, so the next one is `|built|`). */
  datatype World = World(registry: map<string, ClientId>, built: seq<Settings>)

  /** A page session before any client exists. */
  const Initial := World(map[], [])

  /** Every registry entry is a client that was built, from settings whose key is that entry's key. */
  predicate Valid(w: World) {
    forall k | k in w.registry :: w.registry[k] < |w.built| && KeyOf(w.built[w.registry[k]]) == k
  }

  /** A client the provisioner built itself, or whatever a delegated factory returned. */
  datatype Provided = Managed(id: ClientId) | Delegated(client: ExternalClient)

  datatype Provision = Provision(client: Provided, world: World)

  /** The registry key a configuration resolves to for a call, when it resolves to settings. */
  function KeyFor(cfg: Config, call: Call): Option<string> {
    match ResolveSettings(cfg, call)
    case Success(Settled(s)) => Some(KeyOf(s))
    case _ => None
  }

  /** `new ApolloClient(settings)`: a client that did not exist before. */
  function NewClient(s: Settings, w: World): Provision {
    Provision(Managed(|w.built|), w.(built := w.built + [s]))
  }

  /** The provisioner. `browser` is `process.browser`. A failure is an exception: it leaves the
      world as it was. */
  function GetApolloClient(cfg: Config, call: Call, browser: bool, w: World): (r: Result<Provision, Error>)
    // resolution errors propagate and nothing is built
    ensures ResolveSettings(cfg, call).Failure? ==> r == Failure(ResolveSettings(cfg, call).error)
    // a factory gets the same arguments; the registry is neither read nor written
    ensures ResolveSettings(cfg, call).Success? && ResolveSettings(cfg, call).value.Delegate? ==>
      var made := ResolveSettings(cfg, call).value.make(call);
      && (made.Success? ==> r == Success(Provision(Delegated(made.value), w)))
      && (made.Failure? ==> r == Failure(Thrown(made.error)))
    // settled: the result is always a client of our own
    ensures KeyFor(cfg, call).Some? ==> r.Success? && r.value.client.Managed?
    // server: a client distinct from every earlier one, built from the resolved settings; registry untouched
    ensures KeyFor(cfg, call).Some? && !browser ==>
      && r.value.client.id == |w.built|
      && r.value.world.registry == w.registry
      && r.value.world.built == w.built + [ResolveSettings(cfg, call).value.settings]
    // browser, key present: the stored client, nothing changes
    ensures KeyFor(cfg, call).Some? && browser && KeyFor(cfg, call).value in w.registry ==>
      r.value == Provision(Managed(w.registry[KeyFor(cfg, call).value]), w)
    // browser, key absent: a new client, stored under the key and nowhere else
    ensures KeyFor(cfg, call).Some? && browser && KeyFor(cfg, call).value !in w.registry ==>
      && r.value.client.id == |w.built|
      && r.value.world.built == w.built + [ResolveSettings(cfg, call).value.settings]
      && r.value.world.registry.Keys == w.registry.Keys + {KeyFor(cfg, call).value}
    // browser, either way: afterwards the key holds the returned client
    ensures KeyFor(cfg, call).Some? && browser ==>
      var k := KeyFor(cfg, call).value;
      k in r.value.world.registry && r.value.world.registry[k] == r.value.client.id
    // nothing else changes: earlier clients keep their settings, earlier entries keep their client
    ensures r.Success? ==>
      && w.built <= r.value.world.built
      && forall k | k in w.registry :: k in r.value.world.registry && r.value.world.registry[k] == w.registry[k]
    ensures r.Success? && !browser ==> r.value.world.registry == w.registry
    ensures r.Success? && r.value.client.Managed? && (Valid(w) || !browser) ==> r.value.client.id < |r.value.world.built|
    ensures r.Success? && Valid(w) ==> Valid(r.value.world)
  {
    match ResolveSettings(cfg, call)
    case Failure(e) => Failure(e)
    case Success(Delegate(make)) =>
      (match make(call)
       case Success(c) => Success(Provision(Delegated(c), w))
       case Failure(e) => Failure(Thrown(e)))
    case Success(Settled(s)) =>
      var key := KeyOf(s);
      if !browser then
        Success(NewClient(s, w))
      else if key in w.registry then
        Success(Provision(Managed(w.registry[key]), w))
      else
        var p := NewClient(s, w);
        Success(Provision(p.client, p.world.(registry := w.registry[key := p.client.id])))
  }

  /** A server-built client is none of the browser registry's clients. */
  lemma ServerClientIsUnregistered(cfg: Config, call: Call, w: World)
    requires Valid(w) && KeyFor(cfg, call).Some?
    ensures GetApolloClient(cfg, call, false, w).value.client.id !in w.registry.Values
  {
  }

  /** Singleton per key: once a browser call has returned a client for a key, any later call
      whose configuration resolves to the same key returns that client and changes nothing. */
  lemma BrowserRepeatReuses(cfg: Config, call: Call, cfg': Config, call': Call, w: World)
    requires KeyFor(cfg, call).Some? && KeyFor(cfg', call') == KeyFor(cfg, call)
    ensures var p := GetApolloClient(cfg, call, true, w).value;
      GetApolloClient(cfg', call', true, p.world) == Success(p)
  {
  }

  /** Two browser calls for different keys never hand out the same client. */
  lemma BrowserDistinctKeys(cfg: Config, call: Call, cfg': Config, call': Call, w: World)
    requires Valid(w)
    requires KeyFor(cfg, call).Some? && KeyFor(cfg', call').Some? && KeyFor(cfg, call) != KeyFor(cfg', call')
    ensures var p := GetApolloClient(cfg, call, true, w).value;
      GetApolloClient(cfg', call', true, p.world).value.client != p.client
  {
    var p := GetApolloClient(cfg, call, true, w).value;
    var q := GetApolloClient(cfg', call', true, p.world).value;
    var k, k' := KeyFor(cfg, call).value, KeyFor(cfg', call').value;
    assert KeyOf(q.world.built[q.world.registry[k]]) == k;
    assert KeyOf(q.world.built[q.world.registry[k']]) == k';
  }
}

=== FILE: scenarios.dfy ===
/**
 The repository's sample configurations and a few concrete request sequences, stated as
 lemmas about the model.
 */
module Scenarios {
  import opened Wrappers
  import opened JsValues
  import opened ClientSettings
  import opened Provisioner
  import opened Sessions
  import opened PageWrapper

  /** The network interface both sample configurations build for `GRAPHQL_URL`. */
  function SampleInterface(graphqlUrl: string): NetworkInterface {
    NetworkInterface(Str(graphqlUrl), Str("same-origin"))
  }

  /** The "simple settings" variant: a record; `devTools` stands for
      `process.browser && NODE_ENV !== 'production'`. */
  function SimpleConfig(graphqlUrl: string, devTools: bool): Config {
    RecordConfig(NoSettings.(
      connectToDevTools := Bool(devTools),
      dataIdFromObject := Some(IdOrNull),
      networkInterface := Some(SampleInterface(graphqlUrl))))
  }

  /** The "function settings" variant: a function that copies its state and mode into the record. */
  function FunctionConfigSample(graphqlUrl: string, devTools: bool): Config {
    FunctionConfig((c: Call) => ReturnsSettings(NoSettings.(
      initialState := c.initialState,
      ssrMode := Bool(c.ssrMode),
      connectToDevTools := Bool(devTools),
      dataIdFromObject := Some(IdOrNull),
      networkInterface := Some(SampleInterface(graphqlUrl)))))
  }

  function Named(name: string): Config {
    RecordConfig(NoSettings.(name := Str(name)))
  }

  /** A bare endpoint string: same-origin credentials, dev tools off, the endpoint exactly as given. */
  lemma EndpointStringScenario(call: Call)
    ensures var r := ResolveSettings(StringConfig("https://api.example.com/graphql"), call);
      && r.Success? && r.value.Settled?
      && r.value.settings.networkInterface == Some(NetworkInterface(Str("https://api.example.com/graphql"), Str("same-origin")))
      && r.value.settings.connectToDevTools == Bool(false)
      && KeyFor(StringConfig("https://api.example.com/graphql"), call) == Some(KeyPrefix + "https://api.example.com/graphql")
  {
    StringConfigKey("https://api.example.com/graphql", call);
  }

  /** Two pages wrapped with configs named "A" and "B", each rendered twice in one browser
      session: client 0 for "A" and client 1 for "B", each reused on its second render. */
  lemma NamedClientsScenario(call: Call)
    ensures var s := Run([Request(Named("A"), call), Request(Named("B"), call), Request(Named("A"), call), Request(Named("B"), call)],
                         true, Initial);
      s.results == [Success(Managed(0)), Success(Managed(1)), Success(Managed(0)), Success(Managed(1))]
  {
    var a, b := Request(Named("A"), call), Request(Named("B"), call);
    var qs := [a, b, a, b];
    var s := Run(qs, true, Initial);
    assert KeyOfRequest(a) == Some(KeyPrefix + "A");
    assert KeyOfRequest(b) == Some(KeyPrefix + "B");
    // the first two requests find an empty registry and an unrelated entry, so build 0 and 1
    var (r0, w1) := Step(a, true, Initial);
    assert r0 == Success(Managed(0));
    assert KeyPrefix + "B" !in w1.registry by {
      assert (KeyPrefix + "A")[7] != (KeyPrefix + "B")[7];
    }
    var (r1, w2) := Step(b, true, w1);
    assert r1 == Success(Managed(1));
    assert qs[1..][0] == b;
    assert Run(qs[1..], true, w1).results[0] == r1;
    assert s.results[0] == r0 && s.results[1] == r1;
    // the last two share a key with the first two
    BrowserSingletonPerKey(qs, Initial);
    assert s.results[2] == s.results[0] && s.results[3] == s.results[1] by {
      assert KeyOfRequest(qs[2]) == KeyOfRequest(qs[0]);
      assert KeyOfRequest(qs[3]) == KeyOfRequest(qs[1]);
    }
  }

  /** Two server requests for the same page get two clients, and the registry stays empty. */
  lemma ServerRequestsScenario(graphqlUrl: string, context: map<string, Value>)
    ensures var q := Request(SimpleConfig(graphqlUrl, false), PreparationCall(false, context));
      var s := Run([q, q], false, Initial);
      s.results == [Success(Managed(0)), Success(Managed(1))] && s.world.registry == map[]
  {
    var q := Request(SimpleConfig(graphqlUrl, false), PreparationCall(false, context));
    var w1 := GetApolloClient(q.config, q.call, false, Initial).value.world;
    assert |w1.built| == 1;
    assert Run([q], false, w1).results == [Success(Managed(1))];
    assert [q, q][1..] == [q];
    ServerNeverShares([q, q], Initial);
  }

  /** The simple and the function variant name no client, so both key on the endpoint: pages
      wrapped with either share one browser client when they point at the same URL. */
  lemma SamplesShareBrowserClient(graphqlUrl: string, devTools: bool, devTools': bool, call: Call, call': Call, w: World)
    requires graphqlUrl != ""
    ensures KeyFor(SimpleConfig(graphqlUrl, devTools), call) == Some(KeyPrefix + graphqlUrl)
    ensures KeyFor(FunctionConfigSample(graphqlUrl, devTools'), call') == Some(KeyPrefix + graphqlUrl)
    ensures var p := GetApolloClient(SimpleConfig(graphqlUrl, devTools), call, true, w).value;
      GetApolloClient(FunctionConfigSample(graphqlUrl, devTools'), call', true, p.world) == Success(p)
  {
    BrowserRepeatReuses(SimpleConfig(graphqlUrl, devTools), call, FunctionConfigSample(graphqlUrl, devTools'), call', w);
  }

  /** A configuration function that records the context it was given. */
  function EchoConfig(): Config {
    FunctionConfig((c: Call) => ReturnsSettings(NoSettings.(rest := map["context" := c.context])))
  }

  /** The server preparation hands the request context to the configuration; the constructor
      that follows does not, even though the request had one. */
  lemma ContextOnlyInPreparation(context: map<string, Value>, page: Page, libs: Libraries, w: World)
    ensures var prep := GetInitialProps(EchoConfig(), false, context, page, libs, w);
      && prep.client == Some(Managed(|w.built|))
      && prep.world.built[|w.built|].rest["context"] == Obj(context)
      && (prep.outcome.Success? ==>
            var c := Construct(EchoConfig(), prep.outcome.value, false, prep.world);
            && c.Success? && c.value.client == Managed(|w.built| + 1)
            && c.value.world.built[|w.built| + 1].rest["context"] == Undefined)
  {
  }

  /** Keys are strings, so names that print alike share a client: the number 5 and the string
      "5", and the name "default" and a client with neither name nor endpoint. */
  lemma KeyCollisions()
    ensures KeyOf(NoSettings.(name := Num(5))) == KeyOf(NoSettings.(name := Str("5")))
    ensures KeyOf(NoSettings.(name := Num(42))) != KeyOf(NoSettings.(name := Str("042")))
    ensures KeyOf(NoSettings.(name := Str("default"))) == KeyOf(NoSettings)
    ensures KeyOf(NoSettings.(name := Num(0), networkInterface := Some(SampleInterface("u")))) == "CLIENT_u"
  {
    assert Decimal(5) == "5";
  }

  /** The default extractor keys normalised objects by a truthy `id` and nothing else. */
  lemma IdOrNullScenario()
    ensures IdOrNullOf(Obj(map["id" := Str("post-1"), "title" := Str("t")])) == Success(Str("post-1"))
    ensures IdOrNullOf(Obj(map["id" := Num(0)])) == Success(Null)
    ensures IdOrNullOf(Obj(map["title" := Str("t")])) == Success(Null)
    ensures IdOrNullOf(Null).Failure?
  {
  }
}

=== FILE: sessions.dfy ===
/**
 Sequences of provisioning calls in one process: the requests a server handles, or the
 renders and navigations of one browser session. Each call that throws fails on its own and
 leaves the world as it was; the next call starts from whatever the previous one left.
 */
module Sessions {
  import opened Wrappers
  import opened ClientSettings
  import opened Provisioner

  datatype Request = Request(config: Config, call: Call)

  datatype Session = Session(results: seq<Result<Provided, Error>>, world: World)

  function KeyOfRequest(q: Request): Option<string> {
    KeyFor(q.config, q.call)
  }

  /** One call of a session: its outcome, and the world the next call starts from. */
  function Step(q: Request, browser: bool, w: World): (Result<Provided, Error>, World) {
    match GetApolloClient(q.config, q.call, browser, w)
    case Failure(e) => (Failure(e), w)
    case Success(p) => (Success(p.client), p.world)
  }

  /** The calls `qs`, in order, starting from `w`. */
  function Run(qs: seq<Request>, browser: bool, w: World): (s: Session)
    ensures |s.results| == |qs|
    decreases |qs|
  {
    if |qs| == 0 then Session([], w)
    else
      var (result, w1) := Step(qs[0], browser, w);
      var rest := Run(qs[1..], browser, w1);
      Session([result] + rest.results, rest.world)
  }

  /** A session only ever adds: built clients keep their settings, registry entries keep their
      client, validity is kept, and on the server the registry is never touched. */
  lemma {:induction false} RunOnlyExtends(qs: seq<Request>, browser: bool, w: World)
    ensures var s := Run(qs, browser, w);
      && w.built <= s.world.built
      && (forall k | k in w.registry :: k in s.world.registry && s.world.registry[k] == w.registry[k])
      && (!browser ==> s.world.registry == w.registry)
      && (Valid(w) ==> Valid(s.world))
    decreases |qs|
  {
    if |qs| > 0 {
      RunOnlyExtends(qs[1..], browser, Step(qs[0], browser, w).1);
    }
  }

  /** Every client of our own among `results` has an identifier in `[lo, hi)`. */
  predicate IdsWithin(results: seq<Result<Provided, Error>>, lo: nat, hi: nat) {
    forall i | 0 <= i < |results| && results[i].Success? && results[i].value.Managed? ::
      lo <= results[i].value.id < hi
  }

  /** Clients of our own appear among `results` in strictly increasing order. */
  predicate IdsIncreasing(results: seq<Result<Provided, Error>>) {
    forall i, j | 0 <= i < j < |results| && results[i].Success? && results[i].value.Managed?
                                         && results[j].Success? && results[j].value.Managed? ::
      results[i].value.id < results[j].value.id
  }

  /** Every client a server session hands out was built during that session, and later
      requests get strictly later clients. */
  lemma {:induction false} ServerIdsIncrease(qs: seq<Request>, w: World)
    ensures IdsWithin(Run(qs, false, w).results, |w.built|, |Run(qs, false, w).world.built|)
    ensures IdsIncreasing(Run(qs, false, w).results)
    decreases |qs|
  {
    if |qs| > 0 {
      var (first, w1) := Step(qs[0], false, w);
      ServerIdsIncrease(qs[1..], w1);
      RunOnlyExtends(qs[1..], false, w1);
      var s := Run(qs, false, w);
      var rest := Run(qs[1..], false, w1);
      assert s.results == [first] + rest.results;
      assert first.Success? && first.value.Managed? ==> |w.built| <= first.value.id < |w1.built|;
      assert |w1.built| <= |s.world.built|;
    }
  }

  /** No client of our own is returned to two different calls. */
  predicate NoClientShared(results: seq<Result<Provided, Error>>) {
    forall i, j | 0 <= i < |results| && 0 <= j < |results| && i != j
                  && results[i].Success? && results[i].value.Managed? && results[j].Success? ::
      results[i].value != results[j].value
  }

  /** No client of our own among `results` is held in `registry`. */
  predicate NoneRegistered(results: seq<Result<Provided, Error>>, registry: map<string, ClientId>) {
    forall i | 0 <= i < |results| && results[i].Success? && results[i].value.Managed? ::
      results[i].value.id !in registry.Values
  }

  /** The server never shares a client: two requests of a server session never get the same
      client, none of them gets a client of the browser registry, and the registry is untouched. */
  lemma ServerNeverShares(qs: seq<Request>, w: World)
    requires Valid(w)
    ensures Run(qs, false, w).world.registry == w.registry
    ensures NoClientShared(Run(qs, false, w).results)
    ensures NoneRegistered(Run(qs, false, w).results, w.registry)
  {
    ServerIdsIncrease(qs, w);
    RunOnlyExtends(qs, false, w);
  }

  /** In a browser session, every request that resolves to settings got exactly the client the
      registry holds under its key at the end of the session. */
  lemma {:induction false} BrowserResultsAreRegistered(qs: seq<Request>, w: World)
    ensures var s := Run(qs, true, w);
      forall i | 0 <= i < |qs| && KeyOfRequest(qs[i]).Some? ::
        && KeyOfRequest(qs[i]).value in s.world.registry
        && s.results[i] == Success(Managed(s.world.registry[KeyOfRequest(qs[i]).value]))
    decreases |qs|
  {
    if |qs| > 0 {
      var w1 := Step(qs[0], true, w).1;
      BrowserResultsAreRegistered(qs[1..], w1);
      RunOnlyExtends(qs[1..], true, w1);
      var s := Run(qs, true, w);
      var rest := Run(qs[1..], true, w1);
      forall i | 0 <= i < |qs| && KeyOfRequest(qs[i]).Some?
        ensures KeyOfRequest(qs[i]).value in s.world.registry
        ensures s.results[i] == Success(Managed(s.world.registry[KeyOfRequest(qs[i]).value]))
      {
        if i > 0 {
          assert qs[i] == qs[1..][i - 1];
          assert s.results[i] == rest.results[i - 1];
        }
      }
    }
  }

  /** Among the calls that resolve to settings, two got the same outcome exactly when they share a key. */
  predicate OneClientPerKey(qs: seq<Request>, results: seq<Result<Provided, Error>>) {
    && |results| == |qs|
    && forall i, j | 0 <= i < |qs| && 0 <= j < |qs| && KeyOfRequest(qs[i]).Some? && KeyOfRequest(qs[j]).Some? ::
         results[i] == results[j] <==> KeyOfRequest(qs[i]) == KeyOfRequest(qs[j])
  }

  /** Singleton per key in the browser: requests whose configurations resolve to one key get
      one client, and requests for different keys get different clients. */
  lemma BrowserSingletonPerKey(qs: seq<Request>, w: World)
    requires Valid(w)
    ensures OneClientPerKey(qs, Run(qs, true, w).results)
  {
    BrowserResultsAreRegistered(qs, w);
    RunOnlyExtends(qs, true, w);
    var s := Run(qs, true, w);
    forall i, j | 0 <= i < |qs| && 0 <= j < |qs| && KeyOfRequest(qs[i]).Some? && KeyOfRequest(qs[j]).Some?
      ensures s.results[i] == s.results[j] <==> KeyOfRequest(qs[i]) == KeyOfRequest(qs[j])
    {
      var k, k' := KeyOfRequest(qs[i]).value, KeyOfRequest(qs[j]).value;
      assert KeyOf(s.world.built[s.world.registry[k]]) == k;
      assert KeyOf(s.world.built[s.world.registry[k']]) == k';
    }
  }
}

=== FILE: wrappers.dfy ===
/** Option and Result, the two failure-carrying datatypes the model uses in place of `undefined` and exceptions. */
module Wrappers {

  datatype Option<+T> = None | Some(value: T)

  datatype Result<+R, +E> = Success(value: R) | Failure(error: E)
}
